=== FILE: README.md ===
# Illuminated Comments: per-line image reconciliation, in Dafny

Illuminated Comments is a Visual Studio extension that shows images inside
source comments. Each editor view gets a `CommentsAdornment`, which:

- buffers changed lines (`OnLayoutChanged`);
- runs a debounced pass over them when a timer fires (`On_Timer_Elapsed`);
- decides per line whether the image directive changed (`CreateVisuals`);
- downloads remote images once and caches them (`Client_DownloadDataCompleted`);
- loads the image into the line's `CommentImage`, or tags the line with an error (`ProcessImage`, `GetErrorMessage`).

This project models that engine as a pure state machine. The state record
(`AdornmentState.State`) has these fields:

- the line-to-image map `Images`, where each image object keeps its object identity;
- the in-flight URL list `_processingUris`;
- the download registry `_toAddImages`;
- the process-wide `ImageCache`;
- the error tags;
- the edited-line buffer;
- the `Enabled` flag.

The parser (`CommentImageParser.Match`/`TryParse`), the image loader
(`CommentImage.TrySet`) and the temp path (`Path.GetTempPath` and
`GetFileName`) are not part of this model. They enter as oracles in
`AdornmentState.Env`.

Modules:

- `Basics`: `Option`, duplicate-freedom, `List.Remove`.
- `Text`: the folded-line test, which splits on CR LF and drops empty pieces, and the case-insensitive `http` prefix test.
- `Errors`: exception kinds, tag titles and `GetErrorMessage`.
- `AdornmentState`: the state, the oracle outcomes and the invariant `Valid`.
- `Reconciler`: the reload decision, `ProcessImage`, `CreateVisuals` and the download completion handler.
- `Safety`: every reconciler step preserves `Valid`.
- `Debounce`: layout buffering, the timer pass and the enable toggle.
- `Machine`: the event-driven machine, invariance over every run, and the failed-download finding.

`Valid` says that:

- every in-flight URL is remote, not cached, listed once, and owned by at most one registered download;
- every registered download's URL is in flight;
- each image object sits at one line at most.

Together these mean one adornment never downloads a URL twice at once.
The model covers one adornment. `_processingUris` belongs to the adornment,
so two views that show the same URL each download it.

In these places the code behaves differently from what a first reading suggests, and the model follows the code:

- A line whose directive did not change still reaches `ProcessImage`. It gets a cache-substituted path and skips only the in-flight check and the download. It is not a no-op.
- A download whose result throws is never released. See Findings.
- The URL is added to the in-flight list before the temp path is computed. If `Path.GetFileName` or `Path.Combine` throws on a character that is invalid in a path, the URL stays in flight with no download registered (`FetchAbandoned`). Later lines that need it are parked.
- The buffer keeps lines from earlier layouts, and the span of a matched directive is built from such a line's old positions on the current snapshot. When those positions no longer fit, for example after the end of the document was deleted, the host throws. The catch ends the visit with nothing changed: the line keeps its old entry and gets no tag (`Reconciler.Action.SpanFailed`, decided by the oracle `Env.spanThrows`).
- When a download completes, only the line that started it is loaded. Other lines parked at the in-flight check keep an unloaded image object until a later layout change buffers them again; that later visit then loads from the cache.
- When a load fails, `ProcessImage` removes whatever entry is at the line number, not necessarily the object it loaded. If the line holds no entry, `Dispose` on null throws, the exception is caught, and no tag is added.
- `Enabled` is static. Only the static constructor initialises it, once per process. A new adornment does not reset it, so a view opened after the extension was switched off starts disabled.
- The timer pass does not look at `Enabled`. Only the buffering in `OnLayoutChanged` does.
- A successful `TrySet` records the original URL and scale it was passed. This is an assumption, because `CommentImage` is not part of this model.

## Model

| member | source | states |
|---|---|---|
| Basics.RemoveFirst | IlluminatedComments/CommentsAdornment.cs:291 | `List.Remove` drops the first occurrence only; on a duplicate-free list the URL is gone afterwards, every other element stays, and the list stays duplicate-free |
| Text.Split | IlluminatedComments/CommentsAdornment.cs:165-167 | splitting always yields at least one piece; with `Text.SplitJoin` and `Text.SplitPiecesHaveNoCrLf` it cuts the text at exactly its CR LF pairs |
| Text.IsFolded | IlluminatedComments/CommentsAdornment.cs:164-171 | a line counts as a collapsed block only when its text holds a CR LF |
| Text.SplitJoin | IlluminatedComments/CommentsAdornment.cs:165-167 | re-joining the pieces that splitting on `Environment.NewLine` produces gives back the line text |
| Text.SplitPiecesHaveNoCrLf | IlluminatedComments/CommentsAdornment.cs:165-167 | no piece of the split contains the separator |
| Text.SplitAfterPiece | IlluminatedComments/CommentsAdornment.cs:165-167 | splitting cuts at the first separator after a separator-free prefix |
| Text.SinglePiece | IlluminatedComments/CommentsAdornment.cs:165-167 | a line with no CR LF splits into exactly one piece, itself |
| Text.TwoLinesFolded | IlluminatedComments/CommentsAdornment.cs:164-171 | two non-empty lines joined by CR LF are a collapsed block |
| Text.IsRemote | IlluminatedComments/CommentsAdornment.cs:227 | a URL is remote exactly when its first four characters are h, t, t, p in either case |
| Errors.ErrorMessage | IlluminatedComments/CommentsAdornment.cs:383-395 | an XML error reads "Problem with comment format: " then the message; a not-supported error reads the message then the corrupt-or-unsupported-file sentence; any other error is the message verbatim |
| Errors.MessageRoundTrip | IlluminatedComments/CommentsAdornment.cs:383-395 | the exception's message can be read back from the tag message by stripping the kind's prefix or suffix |
| Errors.ErrorMessageInjective | IlluminatedComments/CommentsAdornment.cs:383-395 | two exceptions of the same kind with equal tag messages carry equal messages |
| AdornmentState.Init | IlluminatedComments/CommentsAdornment.cs:45-62 | a new adornment holds no images, no downloads, no in-flight URLs, no tags and no buffered lines; it inherits the shared cache and the static `Enabled` flag as they are |
| AdornmentState.InitValid | IlluminatedComments/CommentsAdornment.cs:33-37 | a new adornment satisfies the invariant |
| Reconciler.Decide | IlluminatedComments/CommentsAdornment.cs:200-220 | reload is set exactly when the line holds no image, an image for another URL, or the same URL at another scale; a fresh object has no URL; a scale-only change overwrites the stored scale; the object identity is kept |
| Reconciler.DecideIgnoresFreshScale | IlluminatedComments/CommentsAdornment.cs:201-207 | the decision never reads the scale of an image that has no URL yet |
| Reconciler.Adopt | IlluminatedComments/CommentsAdornment.cs:316-321 | a successful `TrySet` records URL and scale on that object only, wherever it sits; no line gains or loses an image |
| Reconciler.Resolve | IlluminatedComments/CommentsAdornment.cs:229-231 | the path is kept, or replaced by its cached copy; a local path is never replaced, and a cached remote URL always is |
| Reconciler.ProcessImage | IlluminatedComments/CommentsAdornment.cs:312-343 | success keeps the line's entry and records URL and scale; failure removes the entry at the line and appends one "Trouble loading image" tag, or changes nothing when the line holds no entry; downloads and cache are untouched |
| Reconciler.Claim | IlluminatedComments/CommentsAdornment.cs:200-220 | after `AddOrUpdate` the line always holds an entry and no other line changes |
| Reconciler.LoadPath | IlluminatedComments/CommentsAdornment.cs:227-263 | a local URL is loaded as is; a remote URL with a local cached copy is loaded from that copy; an uncached one is passed through |
| Reconciler.Reconcile | IlluminatedComments/CommentsAdornment.cs:200-264 | a reload of an in-flight URL returns with nothing started or loaded; a reload of an uncached remote URL adds it to the in-flight list once and registers exactly one download for it, or none when the temp path throws; every other case, including an unchanged directive, calls `ProcessImage` with the directive's URL as the original; other lines are untouched |
| Reconciler.CreateVisuals | IlluminatedComments/CommentsAdornment.cs:160-276 | a collapsed block changes nothing, not even an existing image; no match removes the line's image with no tag; a matched line whose span the host cannot build changes nothing; otherwise a parse error removes the image and appends exactly one "XML parse error" tag; neither touches downloads or cache; tags are only appended |
| Reconciler.DownloadCompleted | IlluminatedComments/CommentsAdornment.cs:278-310 | on success the cache maps the URL to the temp file, the URL leaves the in-flight list, the registration is dropped and `ProcessImage` runs with the temp file and the original URL; on failure nothing changes |
| Reconciler.DownloadCompletedReleasing | IlluminatedComments/CommentsAdornment.cs:286-302 | the corrected handler also releases a failed download: the URL leaves the in-flight list and the registration is dropped, with cache, images and tags unchanged |
| Safety.ProcessImagePreservesValid | IlluminatedComments/CommentsAdornment.cs:324-337 | loading or failing to load keeps the invariant |
| Safety.CreateVisualsPreservesValid | IlluminatedComments/CommentsAdornment.cs:160-276 | a line visit keeps the invariant |
| Safety.ReconcilePreservesValid | IlluminatedComments/CommentsAdornment.cs:222-264 | the in-flight check, the cache lookup and the start of a download keep the invariant |
| Safety.StartFetchPreservesTracking | IlluminatedComments/CommentsAdornment.cs:233-256 | registering a download for an uncached remote URL not yet in flight keeps every URL owned by at most one download |
| Safety.MarkInFlightPreservesTracking | IlluminatedComments/CommentsAdornment.cs:234-236 | marking an uncached remote URL in flight before the temp path throws keeps the download bookkeeping consistent |
| Safety.ReleasePreservesTracking | IlluminatedComments/CommentsAdornment.cs:291-302 | removing a download's URL and its registration keeps the others tracked |
| Safety.DownloadCompletedPreservesValid | IlluminatedComments/CommentsAdornment.cs:286-302 | the completion handler as written keeps the invariant |
| Safety.DownloadCompletedReleasingPreservesValid | IlluminatedComments/CommentsAdornment.cs:286-302 | the corrected completion handler keeps the invariant |
| Debounce.Record | IlluminatedComments/CommentsAdornment.cs:95-100 | the buffer holds exactly the earlier lines plus every changed line number |
| Debounce.RecordKeepsUntouched | IlluminatedComments/CommentsAdornment.cs:95-100 | a buffered line that no event mentions keeps its text |
| Debounce.RecordLastWriteWins | IlluminatedComments/CommentsAdornment.cs:95-100 | a line number changed several times holds the text of its last event |
| Debounce.LayoutChanged | IlluminatedComments/CommentsAdornment.cs:80-102 | when disabled nothing changes; when enabled the tags are cleared, the lines are buffered, and nothing else changes |
| Debounce.Pass | IlluminatedComments/CommentsAdornment.cs:144-154 | a pass never touches the cache or the buffer and only appends tags |
| Debounce.TimerElapsed | IlluminatedComments/CommentsAdornment.cs:132-158 | after the pass the buffer is empty and the cache is unchanged |
| Debounce.PassPreservesValid | IlluminatedComments/CommentsAdornment.cs:144-154 | a whole pass keeps the invariant |
| Debounce.PassFrame | IlluminatedComments/CommentsAdornment.cs:144-154 | lines the pass does not visit keep their images |
| Debounce.VisitSettles | IlluminatedComments/CommentsAdornment.cs:160-276 | after its visit, a line is untouched if collapsed, imageless if unmatched, imageless with a newly appended XML error tag if malformed, and otherwise holds an image object that may be unloaded (waiting for its own download, or parked behind another line's), or has a newly appended load-error tag; a matched line whose span the host cannot build is untouched |
| Debounce.SettledStable | IlluminatedComments/CommentsAdornment.cs:144-154 | a settled line stays settled while later visits leave its image alone and only append tags |
| Debounce.PassSettles | IlluminatedComments/CommentsAdornment.cs:144-154 | every line a pass visits ends settled, whatever the order of the other lines |
| Debounce.TimerElapsedSettles | IlluminatedComments/CommentsAdornment.cs:144-156 | a timer pass settles every buffered line, leaves every other line's image alone, and keeps the invariant |
| Debounce.ToggleEnabled | IlluminatedComments/CommentsAdornment.cs:68-73 | the flag flips, nothing else changes, and the message names the new setting |
| Debounce.ToggleTwice | IlluminatedComments/CommentsAdornment.cs:68-73 | toggling twice restores the state, and the two messages differ |
| Machine.Next | IlluminatedComments/CommentsAdornment.cs:80-310 | no event removes a cache key, and only the toggle changes the enabled flag |
| Machine.Advance | IlluminatedComments/CommentsAdornment.cs:282-284 | a completing client is retired, so no `WebClient` completes twice; other events retire none |
| Machine.NextPreservesValid | IlluminatedComments/CommentsAdornment.cs:80-310 | every event keeps the invariant, with either completion handler |
| Machine.CacheOnlyGrows | IlluminatedComments/CommentsAdornment.cs:290 | within one adornment, an entry, once cached, never changes |
| Machine.RunPreservesValid | IlluminatedComments/CommentsAdornment.cs:80-310 | every run of events keeps the invariant |
| Machine.ReachableValid | IlluminatedComments/CommentsAdornment.cs:47-62 | every state reachable from a new adornment, enabled or not, satisfies the invariant |
| Machine.VisitKeepsFlights | IlluminatedComments/CommentsAdornment.cs:222-257 | a line visit keeps every in-flight URL and every registered download, and registers new ones only for URLs not in flight |
| Machine.PassKeepsFlights | IlluminatedComments/CommentsAdornment.cs:144-154 | the same holds for a whole timer pass |
| Machine.StepKeepsStuck | IlluminatedComments/CommentsAdornment.cs:80-310 | as written, once every client registered for an in-flight URL has completed, no event takes the URL out of flight |
| Machine.StuckForever | IlluminatedComments/CommentsAdornment.cs:80-310 | as written, such a URL stays in flight through every later run of events |
| Machine.FailedDownloadStaysInFlight | IlluminatedComments/CommentsAdornment.cs:286-302 | as written, a failed download's URL stays in flight for the life of the adornment, whatever events follow; the corrected handler releases it at once |
| Machine.NoConcurrentDuplicateFetch | IlluminatedComments/CommentsAdornment.cs:225-257 | a started download is for a URL no registered download has, and it is the only one for that URL |
| Machine.CompletionServesOnlyItsLine | IlluminatedComments/CommentsAdornment.cs:286-300 | a completed download loads only the image object it was started for; any other line keeps its entry unchanged |
| Machine.RevisitLoadsFromCache | IlluminatedComments/CommentsAdornment.cs:222-264 | a reloading visit of a URL whose local copy is cached loads that copy, with the directive's URL as the original |
| Machine.ParkedLineExample | IlluminatedComments/CommentsAdornment.cs:222-300 | two lines with the same remote directive: one starts the download, the other is parked; after completion the local copy is cached and only the first line holds the URL, while the second still holds an unloaded object |
| Machine.FailedDownloadBlocksRetry | IlluminatedComments/CommentsAdornment.cs:286-302 | as written, after a failed download a line needing that URL is parked at the in-flight check; with the corrected handler it starts a new download |
| Machine.FailedDownloadExample | IlluminatedComments/CommentsAdornment.cs:286-291 | a concrete line and URL where the second pass after a failed download starts nothing as written, and starts download 1 when corrected |

## Left out

- Host editor UI is not modelled: snapshots, `ITextViewLine`, the span arithmetic at lines 176-178 (only whether building the span throws is kept), the adornment layer and `AddAdornment` geometry at 345-381. A tag's span is represented by its line number. A failure to get geometry throws inside `ProcessImage`, which catches it and leaves the model state unchanged.
- The zoom-level workaround at lines 104-118 is a UI workaround and is not modelled.
- `WebClient`, `File.WriteAllBytes` and the temp path are I/O. The temp path is the oracle `Env.tempPath`. A failed write is folded into `FetchFailed`, because it also stops the handler before any state changes.
- `System.Timers.Timer`, `ResetTimer`, the main-thread switch and the dispatcher are threading and timing. The timer firing is an explicit step. Each event, including a download completion, is one atomic step.
- The enumeration order of `_editedLines` is unspecified, so the timer step takes it as a parameter.
- Only one adornment is modelled. Other adornments write to the shared `ImageCache`. If one of them caches a URL that this adornment has in flight, `Valid`'s clause that in-flight URLs are uncached no longer holds, and, under the overwrite reading of `ImageCache.Add` below, this adornment's own completion then overwrites the entry. If `Add` instead throws on a duplicate key, line 291 is skipped and the URL stays in flight. "Never downloads twice at once" and `Machine.CacheOnlyGrows` hold within one adornment only.
- `UIMessage`, `ExceptionHandler`, `Trace`, the `TagsChanged` event, `GetTags`, `Dispose` of images and of the adornment are side effects only and are not modelled.
- `OnContentTypeChanged` is not a separate event. The content type is folded into the parse oracle, and each timer and download step carries its own oracles, so a content-type change between events is a change of oracle.
- The image scale is a `real`, not a `double`. "Scale changed" is plain inequality rather than the `float.Epsilon` test at line 207.
- `CommentImageParser`, `ImageCache`, `CommentImage` and `VariableExpander` are not part of this model. They are treated as oracles, or, for the cache, as a map. `ImageCache.Add` is modelled as an overwrite. Within one adornment, under the invariant, it never receives a URL that is already cached.
- Text.IsRemote: compares with ASCII case folding. No other character upper-cases to H, T or P, so this agrees with `OrdinalIgnoreCase` for this prefix.
- Reconciler.LoadPath: the contract states the loaded path only for the case where the cached copy of a URL is itself a local path. The second cache lookup at lines 261-263 is modelled in the body for every case.
- `new Uri(url)` throwing on a malformed remote URL is not a separate case. The URL and its download are already registered at that point, so the state is that of `FetchStarted`, and in the source that download never completes. `Machine.Allowed` still admits a completion for that client, so the model has runs the source cannot have; every `Machine` lemma holds for all runs, these included.
- Line numbers are unbounded naturals, not 32-bit `int`.
- `IlluminatedComments/Properties/AssemblyInfo.cs` is assembly metadata with no logic.

## Findings

| source | as written | input that shows it | evidently intended | confidence | as-written member | corrected member |
|---|---|---|---|---|---|---|
| IlluminatedComments/CommentsAdornment.cs:286-302 | when `e.Result` throws because the download failed, `_processingUris.Remove` and `_toAddImages.TryRemove` are skipped, so the URL stays in flight for the life of the view | line 0 with a directive for `http://example.com/a.png`: the first pass starts download 0; it fails; the next pass over line 0 returns at the in-flight check and never retries | a failed download leaves the in-flight list and the registry as well, so a later pass retries it | high; not executed | Reconciler.DownloadCompleted, Machine.FailedDownloadExample, Machine.FailedDownloadStaysInFlight | Reconciler.DownloadCompletedReleasing, Machine.FailedDownloadBlocksRetry |

`Machine.Next` takes the completion handler as a parameter:

- `Machine.Completion.AsWritten` follows the code.
- `Machine.Completion.Releasing` uses the corrected handler.

The invariant is proved for both.

=== FILE: basics.dfy ===
/** Small helpers shared by the model: an optional value and the two list
    operations the adornment's in-flight list relies on. */
module Basics {

  /** A value that may be missing (a C# null reference or a failed TryGetValue). */
  datatype Option<+T> = None | Some(value: T)

  /** True iff no element occurs twice in `xs`. */
  ghost predicate NoDup<T>(xs: seq<T>) {
    forall i, j :: 0 <= i < j < |xs| ==> xs[i] != xs[j]
  }

  /** `List<T>.Remove`: drops the first occurrence of `x`, if there is one. */
  function RemoveFirst<T(==)>(xs: seq<T>, x: T): (r: seq<T>)
    ensures x !in xs ==> r == xs
    ensures x in xs ==> |r| == |xs| - 1
    ensures forall y :: y in r ==> y in xs
    ensures forall y :: y in xs && y != x ==> y in r
    ensures NoDup(xs) ==> NoDup(r) && x !in r
  {
    if |xs| == 0 then []
    else if xs[0] == x then xs[1..]
    else
      var rest := RemoveFirst(xs[1..], x);
      assert NoDup(xs) ==> xs[0] !in xs[1..] && NoDup(xs[1..]);
      assert NoDup(xs) ==> xs[0] !in rest;
      [xs[0]] + rest
  }
}

=== FILE: debounce.dfy ===
/** Debounce buffering: `OnLayoutChanged` records changed lines, and the timer
    pass (`On_Timer_Elapsed`) runs `CreateVisuals` on each recorded line and
    then forgets them. Also the `Enabled` toggle. */
module Debounce {
  import opened Basics
  import opened Text
  import opened Errors
  import opened AdornmentState
  import opened Reconciler
  import opened Safety

  /** A new or reformatted line: its line number and its text. */
  datatype LineEvent = LineEvent(number: nat, text: string)

  /** The loop `_editedLines[lineNumber] = line` over the changed lines, in order. */
  function Record(edited: map<nat, string>, lines: seq<LineEvent>): (r: map<nat, string>)
    ensures forall k :: k in r <==> k in edited || exists i :: 0 <= i < |lines| && lines[i].number == k
    decreases |lines|
  {
    if |lines| == 0 then edited
    else Record(edited[lines[0].number := lines[0].text], lines[1..])
  }

  /** A line number no event mentions keeps its recorded text. */
  lemma {:induction false} RecordKeepsUntouched(edited: map<nat, string>, lines: seq<LineEvent>, k: nat)
    requires k in edited
    requires forall i :: 0 <= i < |lines| ==> lines[i].number != k
    ensures Record(edited, lines)[k] == edited[k]
    decreases |lines|
  {
    if |lines| > 0 {
      RecordKeepsUntouched(edited[lines[0].number := lines[0].text], lines[1..], k);
    }
  }

  /** Last write wins: a line number ends up with the text of its last event. */
  lemma {:induction false} RecordLastWriteWins(edited: map<nat, string>, lines: seq<LineEvent>, i: nat)
    requires i < |lines|
    requires forall j :: i < j < |lines| ==> lines[j].number != lines[i].number
    ensures Record(edited, lines)[lines[i].number] == lines[i].text
    decreases |lines|
  {
    var e' := edited[lines[0].number := lines[0].text];
    if i == 0 {
      RecordKeepsUntouched(e', lines[1..], lines[0].number);
    } else {
      RecordLastWriteWins(e', lines[1..], i - 1);
    }
  }

  /** `OnLayoutChanged`: ignored while disabled; otherwise clears the error tags
      and records every new or reformatted line, restarting the timer. */
  function LayoutChanged(s: State, lines: seq<LineEvent>): (t: State)
    ensures !s.enabled ==> t == s
    ensures s.enabled ==>
      && t.tags == []
      && t.edited == Record(s.edited, lines)
      && t.(tags := s.tags, edited := s.edited) == s
  {
    if !s.enabled then s
    else s.(tags := [], edited := Record(s.edited, lines))
  }

  /** `order` lists every recorded line number exactly once: the (unspecified)
      enumeration order of `_editedLines`. */
  ghost predicate Enumerates(order: seq<nat>, edited: map<nat, string>) {
    NoDup(order) && forall l :: l in order <==> l in edited
  }

  /** `CreateVisuals` on each line of `order`, with its recorded text. */
  function Pass(s: State, env: Env, snapshot: map<nat, string>, order: seq<nat>): (t: State)
    requires forall l :: l in order ==> l in snapshot
    ensures t.cache == s.cache && t.edited == s.edited && t.enabled == s.enabled
    ensures s.tags <= t.tags
    decreases |order|
  {
    if |order| == 0 then s
    else Pass(CreateVisuals(s, env, order[0], snapshot[order[0]]).after, env, snapshot, order[1..])
  }

  /** `On_Timer_Elapsed`: one pass over every recorded line, then `_editedLines.Clear()`. */
  function TimerElapsed(s: State, env: Env, order: seq<nat>): (t: State)
    requires Enumerates(order, s.edited)
    ensures t.edited == map[]
    ensures t.cache == s.cache && t.enabled == s.enabled
    ensures s.tags <= t.tags
  {
    Pass(s, env, s.edited, order).(edited := map[])
  }

  lemma {:induction false} PassPreservesValid(s: State, env: Env, snapshot: map<nat, string>, order: seq<nat>)
    requires Valid(s)
    requires forall l :: l in order ==> l in snapshot
    ensures Valid(Pass(s, env, snapshot, order))
    decreases |order|
  {
    if |order| > 0 {
      CreateVisualsPreservesValid(s, env, order[0], snapshot[order[0]]);
      PassPreservesValid(CreateVisuals(s, env, order[0], snapshot[order[0]]).after, env, snapshot, order[1..]);
    }
  }

  /** A pass leaves the images of lines it does not visit alone. */
  lemma {:induction false} PassFrame(s: State, env: Env, snapshot: map<nat, string>, order: seq<nat>)
    requires Valid(s)
    requires forall l :: l in order ==> l in snapshot
    ensures forall l :: l !in order ==> SameAt(s.images, Pass(s, env, snapshot, order).images, l)
    decreases |order|
  {
    if |order| > 0 {
      var s1 := CreateVisuals(s, env, order[0], snapshot[order[0]]).after;
      CreateVisualsPreservesValid(s, env, order[0], snapshot[order[0]]);
      var final := Pass(s1, env, snapshot, order[1..]);
      assert Pass(s, env, snapshot, order) == final;
      PassFrame(s1, env, snapshot, order[1..]);
      forall l | l !in order ensures SameAt(s.images, final.images, l) {
        assert l != order[0] && l !in order[1..];
        assert SameAt(s.images, s1.images, l);
        assert SameAt(s1.images, final.images, l);
        SameAtTrans(s.images, s1.images, final.images, l);
      }
    }
  }

  lemma SameAtTrans(a: map<nat, Entry>, b: map<nat, Entry>, c: map<nat, Entry>, l: nat)
    requires SameAt(a, b, l) && SameAt(b, c, l)
    ensures SameAt(a, c, l)
  {
  }

  /** `tag` is among the tags appended after the first `|before|`. */
  ghost predicate NewTag(before: seq<Tag>, tags: seq<Tag>, tag: Tag) {
    exists i :: |before| <= i < |tags| && tags[i] == tag
  }

  /** A load error tag for line `l` is among the tags appended after the first `|before|`. */
  ghost predicate NewLoadTag(before: seq<Tag>, tags: seq<Tag>, l: nat) {
    exists i :: |before| <= i < |tags| && tags[i].line == l && tags[i].title == LoadTitle
  }

  /** Where line `l`, recorded with `text`, stands in `st` once it has been
      visited, compared with the state `orig` before the pass: a folded block
      is untouched; no directive leaves no image; a malformed directive leaves
      no image and an XML parse error tag added since `orig`; a directive
      leaves an image object at the line (possibly one still waiting for its
      download) or a load error tag added since `orig`. A matched line whose
      span the host cannot build is untouched, like a folded block. */
  ghost predicate Settled(orig: State, env: Env, text: string, l: nat, st: State) {
    if IsFolded(text) || (!env.parse(text).NoMatch? && env.spanThrows(l)) then SameAt(orig.images, st.images, l)
    else match env.parse(text)
      case NoMatch => l !in st.images
      case ParseError(f) => l !in st.images && NewTag(orig.tags, st.tags, Tag(l, XmlParseTitle, ErrorMessage(f)))
      case Directive(_, _) => l in st.images || NewLoadTag(orig.tags, st.tags, l)
  }

  /** Visiting a line settles it. */
  lemma VisitSettles(orig: State, env: Env, st: State, l: nat, text: string)
    requires SameAt(orig.images, st.images, l) && orig.tags <= st.tags
    ensures Settled(orig, env, text, l, CreateVisuals(st, env, l, text).after)
  {
    var v := CreateVisuals(st, env, l, text);
    if !IsFolded(text) && env.parse(text).ParseError? && !env.spanThrows(l) {
      assert v.after.tags[|st.tags|] == Tag(l, XmlParseTitle, ErrorMessage(env.parse(text).failure));
    }
    if !IsFolded(text) && env.parse(text).Directive? && !env.spanThrows(l) {
      if l !in v.after.images {
        assert v.after.tags[|st.tags|].line == l && v.after.tags[|st.tags|].title == LoadTitle;
      }
    }
  }

  /** A settled line stays settled while its image is untouched and tags are only appended. */
  lemma SettledStable(orig: State, env: Env, text: string, l: nat, st: State, st2: State)
    requires Settled(orig, env, text, l, st)
    requires SameAt(st.images, st2.images, l) && st.tags <= st2.tags
    ensures Settled(orig, env, text, l, st2)
  {
    if !IsFolded(text) && env.parse(text).ParseError? && !env.spanThrows(l) {
      var tag := Tag(l, XmlParseTitle, ErrorMessage(env.parse(text).failure));
      var i :| |orig.tags| <= i < |st.tags| && st.tags[i] == tag;
      assert st2.tags[i] == st.tags[i];
    }
    if !IsFolded(text) && env.parse(text).Directive? && !env.spanThrows(l) && l !in st.images {
      var i :| |orig.tags| <= i < |st.tags| && st.tags[i].line == l && st.tags[i].title == LoadTitle;
      assert st2.tags[i] == st.tags[i];
    }
  }

  lemma {:induction false} PassSettles(orig: State, env: Env, snapshot: map<nat, string>, order: seq<nat>, st: State)
    requires Valid(st)
    requires NoDup(order)
    requires forall l :: l in order ==> l in snapshot
    requires forall l :: l in order ==> SameAt(orig.images, st.images, l)
    requires orig.tags <= st.tags
    ensures forall l :: l in order ==> Settled(orig, env, snapshot[l], l, Pass(st, env, snapshot, order))
    decreases |order|
  {
    if |order| > 0 {
      var m := order[0];
      var rest := order[1..];
      var st1 := CreateVisuals(st, env, m, snapshot[m]).after;
      var final := Pass(st, env, snapshot, order);
      assert final == Pass(st1, env, snapshot, rest);
      VisitSettles(orig, env, st, m, snapshot[m]);
      CreateVisualsPreservesValid(st, env, m, snapshot[m]);
      assert m !in rest;
      forall l | l in rest ensures SameAt(orig.images, st1.images, l) {
        assert l != m;
        assert SameAt(st.images, st1.images, l);
        SameAtTrans(orig.images, st.images, st1.images, l);
      }
      assert NoDup(rest);
      assert orig.tags <= st1.tags;
      PassSettles(orig, env, snapshot, rest, st1);
      PassFrame(st1, env, snapshot, rest);
      SettledStable(orig, env, snapshot[m], m, st1, final);
    }
  }

  /** A timer pass visits every recorded line: each ends settled, every
      other line keeps its image, and the invariant holds afterwards. */
  lemma TimerElapsedSettles(s: State, env: Env, order: seq<nat>)
    requires Valid(s)
    requires Enumerates(order, s.edited)
    ensures Valid(TimerElapsed(s, env, order))
    ensures forall l :: l in s.edited ==> Settled(s, env, s.edited[l], l, TimerElapsed(s, env, order))
    ensures forall l :: l !in s.edited ==> SameAt(s.images, TimerElapsed(s, env, order).images, l)
  {
    PassPreservesValid(s, env, s.edited, order);
    PassSettles(s, env, s.edited, order, s);
    PassFrame(s, env, s.edited, order);
  }

  /** What `ToggleEnabled` leaves behind: the state and the message shown. */
  datatype Toggled = Toggled(after: State, message: string)

  /** `ToggleEnabled`: flips the flag and announces the new setting. */
  function ToggleEnabled(s: State): (r: Toggled)
    ensures r.after.enabled == !s.enabled
    ensures r.after.(enabled := s.enabled) == s
    ensures |r.message| > 29 && r.message[..21] == "Illuminated comments "
    ensures r.after.enabled ==> r.message[21..28] == "enabled"
    ensures !r.after.enabled ==> r.message[21..29] == "disabled"
  {
    var now := !s.enabled;
    Toggled(s.(enabled := now),
            "Illuminated comments " + (if now then "enabled" else "disabled") + ". Scroll editor window(s) to update.")
  }

  /** Toggling twice restores the state, and the two messages differ. */
  lemma ToggleTwice(s: State)
    ensures ToggleEnabled(ToggleEnabled(s).after).after == s
    ensures ToggleEnabled(ToggleEnabled(s).after).message != ToggleEnabled(s).message
  {
    var m1 := ToggleEnabled(s).message;
    var m2 := ToggleEnabled(ToggleEnabled(s).after).message;
    assert m1[21] != m2[21];
  }
}

=== FILE: errors.dfy ===
/** The exceptions the adornment turns into error tags, and `GetErrorMessage`,
    which phrases a tag's message from the exception's kind and message. */
module Errors {

  /** The exception kinds `GetErrorMessage` distinguishes. */
  datatype Failure =
    | XmlFailure(message: string)          // System.Xml.XmlException
    | NotSupportedFailure(message: string) // System.NotSupportedException
    | OtherFailure(message: string)        // any other exception

  const XmlPrefix: string := "Problem with comment format: "
  const CorruptSuffix: string := "\nThis problem could be caused by a corrupt, invalid or unsupported image file."

  /** Tag titles: a malformed directive and an image that failed to load. */
  const XmlParseTitle: string := "XML parse error"
  const LoadTitle: string := "Trouble loading image"

  /** `GetErrorMessage`: the message is always recoverable from the text, at a
      place fixed by the kind. */
  function ErrorMessage(f: Failure): (m: string)
    ensures f.XmlFailure? ==>
      |m| == |XmlPrefix| + |f.message| && m[..|XmlPrefix|] == XmlPrefix && m[|XmlPrefix|..] == f.message
    ensures f.NotSupportedFailure? ==>
      |m| == |f.message| + |CorruptSuffix| && m[..|f.message|] == f.message && m[|f.message|..] == CorruptSuffix
    ensures f.OtherFailure? ==> m == f.message
  {
    match f
    case XmlFailure(msg) => XmlPrefix + msg
    case NotSupportedFailure(msg) => msg + CorruptSuffix
    case OtherFailure(msg) => msg
  }

  /** Strips what `ErrorMessage` added for a failure of the same kind as `f`. */
  function OriginalMessage(f: Failure, m: string): string {
    match f
    case XmlFailure(_) => if |m| >= |XmlPrefix| then m[|XmlPrefix|..] else m
    case NotSupportedFailure(_) => if |m| >= |CorruptSuffix| then m[..|m| - |CorruptSuffix|] else m
    case OtherFailure(_) => m
  }

  /** The exception's own message can be read back from the tag's message. */
  lemma MessageRoundTrip(f: Failure)
    ensures OriginalMessage(f, ErrorMessage(f)) == f.message
  {
  }

  /** Two failures of the same kind with the same tag message carry the same message. */
  lemma ErrorMessageInjective(f: Failure, g: Failure)
    requires f.XmlFailure? == g.XmlFailure? && f.NotSupportedFailure? == g.NotSupportedFailure?
    requires ErrorMessage(f) == ErrorMessage(g)
    ensures f == g
  {
    MessageRoundTrip(f);
    MessageRoundTrip(g);
  }
}

=== FILE: machine.dfy ===
/** The adornment as a state machine over its four kinds of event, the
    invariant over every run, and the failed-download discrepancy. */
module Machine {
  import opened Basics
  import opened Text
  import opened AdornmentState
  import opened Reconciler
  import opened Safety
  import opened Debounce

  /** The events: a layout change, the debounce timer firing (with the order in
      which the recorded lines are enumerated), a download finishing, and the
      user toggling the extension. The timer and download events carry the
      collaborators as they stand when the event runs: the content type, the
      document path and the files behind them may change between events. */
  datatype Step =
    | LayoutStep(lines: seq<LineEvent>)
    | TimerStep(order: seq<nat>, env: Env)
    | DownloadStep(client: nat, fetch: FetchOutcome, env: Env)
    | ToggleStep

  /** Which download completion handler runs: the code as written, or the
      corrected one that also releases a failed download. */
  datatype Completion = AsWritten | Releasing

  /** One adornment, together with the `WebClient`s that have already raised
      `DownloadDataCompleted`. A client raises it once, and the handler
      unsubscribes itself. */
  datatype World = World(view: State, completed: set<nat>)

  /** The timer pass enumerates exactly the recorded lines. */
  ghost predicate Enumerable(s: State, step: Step) {
    step.TimerStep? ==> Enumerates(step.order, s.edited)
  }

  /** Only a client this adornment created, and only once, completes. */
  ghost predicate Allowed(w: World, step: Step) {
    && Enumerable(w.view, step)
    && (step.DownloadStep? ==> step.client < w.view.nextClient && step.client !in w.completed)
  }

  ghost function Next(s: State, completion: Completion, step: Step): (t: State)
    requires Enumerable(s, step)
    ensures s.cache.Keys <= t.cache.Keys
    ensures t.enabled != s.enabled <==> step.ToggleStep?
  {
    match step
    case LayoutStep(lines) => LayoutChanged(s, lines)
    case TimerStep(order, env) => TimerElapsed(s, env, order)
    case DownloadStep(client, fetch, env) =>
      if completion.AsWritten? then DownloadCompleted(s, env, client, fetch)
      else DownloadCompletedReleasing(s, env, client, fetch)
    case ToggleStep => ToggleEnabled(s).after
  }

  /** One event: the adornment steps, and a completing client is retired. */
  ghost function Advance(w: World, completion: Completion, step: Step): (w': World)
    requires Enumerable(w.view, step)
    ensures w'.view == Next(w.view, completion, step)
    ensures step.DownloadStep? ==> w'.completed == w.completed + {step.client}
    ensures !step.DownloadStep? ==> w'.completed == w.completed
  {
    World(Next(w.view, completion, step),
          if step.DownloadStep? then w.completed + {step.client} else w.completed)
  }

  /** Every step keeps the invariant, for either completion handler. */
  lemma NextPreservesValid(s: State, completion: Completion, step: Step)
    requires Valid(s) && Enumerable(s, step)
    ensures Valid(Next(s, completion, step))
  {
    match step
    case LayoutStep(lines) =>
    case TimerStep(order, env) => TimerElapsedSettles(s, env, order);
    case DownloadStep(client, fetch, env) =>
      if completion.AsWritten? {
        DownloadCompletedPreservesValid(s, env, client, fetch);
      } else {
        DownloadCompletedReleasingPreservesValid(s, env, client, fetch);
      }
    case ToggleStep =>
  }

  /** Within one adornment the image cache is append-only: an entry, once
      added, never changes. */
  lemma CacheOnlyGrows(s: State, completion: Completion, step: Step)
    requires Valid(s) && Enumerable(s, step)
    ensures forall u :: u in s.cache ==>
      u in Next(s, completion, step).cache && Next(s, completion, step).cache[u] == s.cache[u]
  {
    if step.DownloadStep? && step.client in s.pending && step.fetch.Received? {
      var u := s.pending[step.client].uri;
      assert u in s.inFlight;
      assert u !in s.cache;
    }
  }

  /** Runs the steps in order; a step that is not allowed is skipped. */
  ghost function Run(w: World, completion: Completion, steps: seq<Step>): World
    decreases |steps|
  {
    if |steps| == 0 then w
    else
      var w' := if Allowed(w, steps[0]) then Advance(w, completion, steps[0]) else w;
      Run(w', completion, steps[1..])
  }

  /** Every state reachable from construction satisfies the invariant: in
      particular this adornment never downloads one URL twice at once. */
  lemma {:induction false} RunPreservesValid(w: World, completion: Completion, steps: seq<Step>)
    requires Valid(w.view)
    ensures Valid(Run(w, completion, steps).view)
    decreases |steps|
  {
    if |steps| > 0 {
      var w' := if Allowed(w, steps[0]) then Advance(w, completion, steps[0]) else w;
      if Allowed(w, steps[0]) {
        NextPreservesValid(w.view, completion, steps[0]);
      }
      RunPreservesValid(w', completion, steps[1..]);
    }
  }

  lemma ReachableValid(cache: map<string, string>, enabled: bool, completion: Completion, steps: seq<Step>)
    ensures Valid(Run(World(Init(cache, enabled), {}), completion, steps).view)
  {
    InitValid(cache, enabled);
    RunPreservesValid(World(Init(cache, enabled), {}), completion, steps);
  }

  /** A line visit keeps every in-flight URL in flight, keeps every registered
      download, and registers new ones only for URLs that were not in flight. */
  lemma VisitKeepsFlights(s: State, env: Env, line: nat, text: string)
    requires Valid(s)
    ensures var t := CreateVisuals(s, env, line, text).after;
      && (forall u :: u in s.inFlight ==> u in t.inFlight)
      && (forall c :: c in t.pending ==>
            (c in s.pending && t.pending[c] == s.pending[c]) || t.pending[c].uri !in s.inFlight)
  {
  }

  /** The same for a whole pass. */
  lemma {:induction false} PassKeepsFlights(s: State, env: Env, snapshot: map<nat, string>, order: seq<nat>)
    requires Valid(s)
    requires forall l :: l in order ==> l in snapshot
    ensures var t := Pass(s, env, snapshot, order);
      && (forall u :: u in s.inFlight ==> u in t.inFlight)
      && (forall c :: c in t.pending ==>
            (c in s.pending && t.pending[c] == s.pending[c]) || t.pending[c].uri !in s.inFlight)
    decreases |order|
  {
    if |order| > 0 {
      var s1 := CreateVisuals(s, env, order[0], snapshot[order[0]]).after;
      var t := Pass(s1, env, snapshot, order[1..]);
      assert Pass(s, env, snapshot, order) == t;
      VisitKeepsFlights(s, env, order[0], snapshot[order[0]]);
      CreateVisualsPreservesValid(s, env, order[0], snapshot[order[0]]);
      PassKeepsFlights(s1, env, snapshot, order[1..]);
      forall c | c in t.pending
        ensures (c in s.pending && t.pending[c] == s.pending[c]) || t.pending[c].uri !in s.inFlight
      {
        if t.pending[c].uri in s.inFlight {
          assert t.pending[c].uri in s1.inFlight;
          assert c in s1.pending && t.pending[c] == s1.pending[c];
        }
      }
    }
  }

  /** URL `u` is in flight, and every client registered for it has already
      completed: nothing can take it out of the in-flight list any more. */
  ghost predicate Stuck(w: World, u: string) {
    && u in w.view.inFlight
    && forall c :: c in w.view.pending && w.view.pending[c].uri == u ==> c in w.completed
  }

  /** As written, every allowed event keeps a stuck URL stuck. */
  lemma StepKeepsStuck(w: World, step: Step, u: string)
    requires Valid(w.view) && Allowed(w, step) && Stuck(w, u)
    ensures Stuck(Advance(w, AsWritten, step), u)
  {
    var s := w.view;
    match step
    case LayoutStep(lines) =>
    case TimerStep(order, env) =>
      PassKeepsFlights(s, env, s.edited, order);
    case DownloadStep(client, fetch, env) =>
      if client in s.pending && fetch.Received? {
        assert s.pending[client].uri != u;
      }
    case ToggleStep =>
  }

  /** As written, a stuck URL stays in flight through every later run of events. */
  lemma {:induction false} StuckForever(w: World, u: string, steps: seq<Step>)
    requires Valid(w.view) && Stuck(w, u)
    ensures u in Run(w, AsWritten, steps).view.inFlight
    decreases |steps|
  {
    if |steps| > 0 {
      var w' := if Allowed(w, steps[0]) then Advance(w, AsWritten, steps[0]) else w;
      if Allowed(w, steps[0]) {
        StepKeepsStuck(w, steps[0], u);
        NextPreservesValid(w.view, AsWritten, steps[0]);
      }
      StuckForever(w', u, steps[1..]);
    }
  }

  /** As written, the URL of a failed download stays in flight for the life of
      the adornment, whatever happens afterwards; the corrected handler
      releases it at once. */
  lemma FailedDownloadStaysInFlight(w: World, client: nat, env: Env, steps: seq<Step>)
    requires Valid(w.view) && client in w.view.pending && client !in w.completed
    ensures var u := w.view.pending[client].uri;
      u in Run(Advance(w, AsWritten, DownloadStep(client, FetchFailed, env)), AsWritten, steps).view.inFlight
    ensures var u := w.view.pending[client].uri;
      u !in Advance(w, Releasing, DownloadStep(client, FetchFailed, env)).view.inFlight
  {
    var u := w.view.pending[client].uri;
    var w1 := Advance(w, AsWritten, DownloadStep(client, FetchFailed, env));
    assert w1.view == w.view;
    assert u in w.view.inFlight;
    StuckForever(w1, u, steps);
  }

  /** A visit never starts a second download of a URL that is already being
      downloaded, and a started download is the only one for its URL. */
  lemma NoConcurrentDuplicateFetch(s: State, env: Env, line: nat, text: string)
    requires Valid(s)
    ensures var v := CreateVisuals(s, env, line, text);
      v.action.FetchStarted? ==>
        && v.action.client !in s.pending
        && (forall c :: c in s.pending ==> s.pending[c].uri != v.after.pending[v.action.client].uri)
        && (forall c :: c in v.after.pending && v.after.pending[c].uri == v.after.pending[v.action.client].uri
                        ==> c == v.action.client)
  {
    var v := CreateVisuals(s, env, line, text);
    if v.action.FetchStarted? {
      var url := env.parse(text).url;
      assert v.after.pending[v.action.client].uri == url;
      forall c | c in s.pending ensures s.pending[c].uri != url {
        assert s.pending[c].uri in s.inFlight;
      }
    }
  }

  /** After a failed download, a line that needs the same URL is parked at the
      in-flight check by the code as written, but starts a fresh download with
      the corrected handler. */
  lemma FailedDownloadBlocksRetry(s: State, env: Env, client: nat, line: nat, text: string)
    requires Valid(s) && client in s.pending
    requires !IsFolded(text) && env.parse(text).Directive?
    requires env.parse(text).url == s.pending[client].uri
    requires NeedsReload(Lookup(s.images, line), env.parse(text).url, env.parse(text).scale)
    requires env.tempPath(env.parse(text).url).Some? && !env.spanThrows(line)
    ensures var t := DownloadCompleted(s, env, client, FetchFailed);
      s.pending[client].uri in t.inFlight && CreateVisuals(t, env, line, text).action == AwaitingFetch
    ensures var t := DownloadCompletedReleasing(s, env, client, FetchFailed);
      s.pending[client].uri !in t.inFlight && CreateVisuals(t, env, line, text).action.FetchStarted?
  {
    var u := s.pending[client].uri;
    assert u in s.inFlight;
    assert IsRemote(u) && u !in s.cache;
  }

  /** A concrete run: line 0 holds a directive for a remote image; the first
      pass starts the download, the download fails, and the next pass over the
      same line starts no new download. */
  lemma FailedDownloadExample()
    ensures var url := "http://example.com/a.png";
      var env := Env(_ => Directive(url, 1.0), _ => Loaded, _ => Some("tmp/a.png"), _ => false);
      var first := CreateVisuals(Init(map[], true), env, 0, "x");
      && first.action == FetchStarted(0)
      && CreateVisuals(DownloadCompleted(first.after, env, 0, FetchFailed), env, 0, "x").action == AwaitingFetch
      && CreateVisuals(DownloadCompletedReleasing(first.after, env, 0, FetchFailed), env, 0, "x").action == FetchStarted(1)
  {
    assert !HasCrLf("x");
    var url := "http://example.com/a.png";
    assert IsRemote(url);
  }

  /** A completed download loads only the line that started it: any other
      line holding another image object keeps its entry unchanged. */
  lemma CompletionServesOnlyItsLine(s: State, env: Env, client: nat, line: nat)
    requires client in s.pending && line in s.images
    requires line != s.pending[client].line && s.images[line].id != s.pending[client].image
    ensures var t := DownloadCompleted(s, env, client, Received);
      line in t.images && t.images[line] == s.images[line]
  {
  }

  /** A line parked behind a finished download, visited again, loads the
      cached local copy with the directive's URL as the original. */
  lemma RevisitLoadsFromCache(s: State, env: Env, line: nat, text: string)
    requires Valid(s)
    requires !IsFolded(text) && env.parse(text).Directive? && !env.spanThrows(line)
    requires IsRemote(env.parse(text).url) && env.parse(text).url in s.cache
    requires !IsRemote(s.cache[env.parse(text).url])
    ensures var url := env.parse(text).url;
      CreateVisuals(s, env, line, text).action == Processed(s.cache[url], url)
  {
    assert env.parse(text).url !in s.inFlight;
  }

  /** A concrete run: lines 0 and 1 hold the same remote directive; line 0
      starts download 0 and line 1 is parked. When the download completes,
      line 0 holds the URL, the local copy is cached, and line 1 still holds
      an unloaded object (a later visit loads it: `RevisitLoadsFromCache`). */
  lemma ParkedLineExample()
    ensures var url := "http://example.com/a.png";
      var env := Env(_ => Directive(url, 1.0), _ => Loaded, _ => Some("tmp/a.png"), _ => false);
      var first := CreateVisuals(Init(map[], true), env, 0, "x");
      var second := CreateVisuals(first.after, env, 1, "x");
      var done := DownloadCompleted(second.after, env, 0, Received);
      && first.action == FetchStarted(0)
      && second.action == AwaitingFetch
      && done.cache[url] == "tmp/a.png"
      && done.images[0].originalUrl == Some(url)
      && done.images[1].originalUrl.None?
  {
    assert !HasCrLf("x");
    var url := "http://example.com/a.png";
    assert IsRemote(url);
  }
}

=== FILE: reconciler.dfy ===
/** The per-line reconciliation of `CommentsAdornment`: `CreateVisuals`, the
    reload decision, `ProcessImage` and `Client_DownloadDataCompleted`. */
module Reconciler {
  import opened Basics
  import opened Text
  import opened Errors
  import opened AdornmentState

  /** True iff a line holding `existing` must (re)load for the directive
      (`url`, `scale`): it holds nothing, holds another URL, or holds the URL at
      another scale. */
  predicate NeedsReload(existing: Option<Entry>, url: string, scale: real) {
    existing.None? || existing.value.originalUrl != Some(url) || existing.value.scale != scale
  }

  /** The image object `Images.AddOrUpdate` leaves at the line, and whether it
      set `reload`. */
  datatype Decision = Decision(entry: Entry, reload: bool)

  /** The `AddOrUpdate` call: a fresh object (`freshId`) when the line holds
      none; the held object otherwise, with its scale overwritten when only the
      scale changed. */
  function Decide(existing: Option<Entry>, url: string, scale: real, freshId: nat): (d: Decision)
    ensures d.reload <==> NeedsReload(existing, url, scale)
    ensures existing.None? ==> d.entry == Entry(freshId, None, FreshScale)
    ensures existing.Some? ==> d.entry.id == existing.value.id && d.entry.originalUrl == existing.value.originalUrl
    ensures existing.Some? && existing.value.originalUrl == Some(url) ==> d.entry.scale == scale
    ensures existing.Some? && existing.value.originalUrl != Some(url) ==> d.entry == existing.value
  {
    match existing
    case None => Decision(Entry(freshId, None, FreshScale), true)
    case Some(img) =>
      if img.originalUrl == Some(url) && img.scale != scale then Decision(img.(scale := scale), true)
      else if img.originalUrl != Some(url) then Decision(img, true)
      else Decision(img, false)
  }

  /** The decision never reads the scale of an image that has no URL yet. */
  lemma DecideIgnoresFreshScale(e: Entry, url: string, scale: real, other: real, freshId: nat)
    requires e.originalUrl.None?
    ensures Decide(Some(e), url, scale, freshId) == Decide(Some(e.(scale := other)), url, scale, freshId).(entry := e)
  {
  }

  /** What a successful `TrySet` does to image object `img`: it records the
      original URL and the scale. `CommentImage` is not part of this model;
      that it records the arguments it was passed is an assumption. */
  function Adopt(images: map<nat, Entry>, img: nat, url: string, scale: real): (r: map<nat, Entry>)
    ensures r.Keys == images.Keys
    ensures forall l :: l in images ==> r[l].id == images[l].id
    ensures forall l :: l in images && images[l].id == img ==> r[l].originalUrl == Some(url) && r[l].scale == scale
    ensures forall l :: l in images && images[l].id != img ==> r[l] == images[l]
  {
    map l | l in images :: if images[l].id == img then Entry(img, Some(url), scale) else images[l]
  }

  /** A remote path with a cached local copy is replaced by that copy. */
  function Resolve(cache: map<string, string>, path: string): (r: string)
    ensures r == path || (path in cache && r == cache[path])
    ensures r != path ==> IsRemote(path)
    ensures IsRemote(path) && path in cache ==> r == cache[path]
  {
    if IsRemote(path) && path in cache then cache[path] else path
  }

  /** `ProcessImage`: loads `path` into image object `img` for `originalUrl`.
      On failure the entry at `line`, whichever object it is, is removed and a
      load error tagged; with no entry at `line`, `Dispose` on null throws,
      the exception is swallowed, and no tag is added. */
  function ProcessImage(s: State, env: Env, img: nat, path: string, originalUrl: string, line: nat, scale: real): (t: State)
    ensures t.inFlight == s.inFlight && t.pending == s.pending && t.cache == s.cache
    ensures t.edited == s.edited && t.enabled == s.enabled
    ensures t.nextImage == s.nextImage && t.nextClient == s.nextClient
    ensures env.load(path).Loaded? ==>
      && t.tags == s.tags
      && t.images.Keys == s.images.Keys
      && (forall l :: l in s.images ==> t.images[l].id == s.images[l].id)
      && (forall l :: l in s.images && s.images[l].id == img ==>
            t.images[l].originalUrl == Some(originalUrl) && t.images[l].scale == scale)
      && (forall l :: l in s.images && s.images[l].id != img ==> t.images[l] == s.images[l])
    ensures env.load(path).LoadFailed? && line in s.images ==>
      && t.images == s.images - {line}
      && t.tags == s.tags + [Tag(line, LoadTitle, ErrorMessage(env.load(path).failure))]
    ensures env.load(path).LoadFailed? && line !in s.images ==> t == s
  {
    match env.load(path)
    case Loaded => s.(images := Adopt(s.images, img, originalUrl, scale))
    case LoadFailed(f) =>
      if line in s.images then
        s.(images := s.images - {line}, tags := s.tags + [Tag(line, LoadTitle, ErrorMessage(f))])
      else s
  }

  /** The state right after `AddOrUpdate`: the decided object sits at `line`. */
  function Claim(s: State, line: nat, url: string, scale: real): (s1: State)
    ensures line in s1.images && s1.images[line] == Decide(Lookup(s.images, line), url, scale, s.nextImage).entry
    ensures s1.inFlight == s.inFlight && s1.pending == s.pending && s1.cache == s.cache && s1.tags == s.tags
    ensures s1.edited == s.edited && s1.enabled == s.enabled && s1.nextClient == s.nextClient
    ensures forall l :: l != line ==> SameAt(s.images, s1.images, l)
    ensures ImagesDistinct(s) ==> ImagesDistinct(s1)
  {
    var d := Decide(Lookup(s.images, line), url, scale, s.nextImage);
    s.(images := s.images[line := d.entry],
       nextImage := if line in s.images then s.nextImage else s.nextImage + 1)
  }

  /** The path handed to `ProcessImage`: the cache substitution of the reload
      branch, then the one every call gets. */
  function LoadPath(cache: map<string, string>, url: string, reload: bool): (path: string)
    ensures !IsRemote(url) ==> path == url
    ensures IsRemote(url) && url !in cache ==> path == url
    ensures IsRemote(url) && url in cache && !IsRemote(cache[url]) ==> path == cache[url]
  {
    Resolve(cache, if reload then Resolve(cache, url) else url)
  }

  /** What `CreateVisuals` did with a line. */
  datatype Action =
    | Skipped                                     // folded block: nothing touched
    | SpanFailed                                  // the host threw building the span: nothing touched
    | Cleared                                     // no directive: entry removed
    | ParseRejected                               // malformed directive: entry removed, tagged
    | AwaitingFetch                               // URL already downloading: return at the in-flight check
    | FetchStarted(client: nat)                   // download started: return after registering it
    | FetchAbandoned                              // temp path threw after the URL was marked in flight
    | Processed(path: string, originalUrl: string) // `ProcessImage` called

  datatype Visit = Visit(after: State, action: Action)

  /** `CreateVisuals` from the `AddOrUpdate` call on, for a line whose text
      parsed to the directive (`url`, `scale`). */
  function Reconcile(s: State, env: Env, line: nat, url: string, scale: real): (v: Visit)
    ensures v.after.cache == s.cache && v.after.edited == s.edited && v.after.enabled == s.enabled
    ensures v.action.AwaitingFetch? || v.action.FetchStarted? || v.action.FetchAbandoned? || v.action.Processed?
    ensures v.action.AwaitingFetch? <==> NeedsReload(Lookup(s.images, line), url, scale) && url in s.inFlight
    ensures v.action.FetchStarted? || v.action.FetchAbandoned? <==>
      NeedsReload(Lookup(s.images, line), url, scale) && url !in s.inFlight && IsRemote(url) && url !in s.cache
    ensures v.action.FetchAbandoned? ==>
      env.tempPath(url).None? && v.after.inFlight == s.inFlight + [url] && v.after.pending == s.pending
    // the early returns keep the decided entry, touch no tag and start no load
    ensures !v.action.Processed? ==>
      && line in v.after.images
      && v.after.images[line] == Decide(Lookup(s.images, line), url, scale, s.nextImage).entry
      && v.after.tags == s.tags
    ensures v.action.AwaitingFetch? ==> v.after.inFlight == s.inFlight && v.after.pending == s.pending
    ensures v.action.FetchStarted? ==>
      && env.tempPath(url).Some?
      && v.after.inFlight == s.inFlight + [url]
      && v.after.pending == s.pending[v.action.client := Download(url, env.tempPath(url).value, v.after.images[line].id, line, scale)]
      && (DownloadsTracked(s) ==> v.action.client !in s.pending)
    // ProcessImage gets the directive's URL as the original and a cache-substituted path
    ensures v.action.Processed? ==>
      && v.action.originalUrl == url
      && v.after.inFlight == s.inFlight && v.after.pending == s.pending
      && (!IsRemote(url) ==> v.action.path == url)
      && (IsRemote(url) && url !in s.cache ==> v.action.path == url)
      && (IsRemote(url) && url in s.cache && !IsRemote(s.cache[url]) ==> v.action.path == s.cache[url])
    ensures v.action.Processed? && env.load(v.action.path).Loaded? ==>
      && line in v.after.images
      && v.after.images[line].originalUrl == Some(url) && v.after.images[line].scale == scale
      && v.after.tags == s.tags
    ensures v.action.Processed? && env.load(v.action.path).LoadFailed? ==>
      && line !in v.after.images
      && v.after.tags == s.tags + [Tag(line, LoadTitle, ErrorMessage(env.load(v.action.path).failure))]
    ensures ImagesDistinct(s) ==> forall l :: l != line ==> SameAt(s.images, v.after.images, l)
  {
    var d := Decide(Lookup(s.images, line), url, scale, s.nextImage);
    var s1 := Claim(s, line, url, scale);
    if d.reload && url in s.inFlight then
      Visit(s1, AwaitingFetch)
    else if d.reload && IsRemote(url) && url !in s.cache then
      match env.tempPath(url)
      case None => Visit(s1.(inFlight := s.inFlight + [url]), FetchAbandoned)
      case Some(tempPath) =>
        var c := s.nextClient;
        Visit(s1.(inFlight := s.inFlight + [url],
                  pending := s.pending[c := Download(url, tempPath, d.entry.id, line, scale)],
                  nextClient := c + 1),
              FetchStarted(c))
    else
      var path := LoadPath(s.cache, url, d.reload);
      Visit(ProcessImage(s1, env, d.entry.id, path, url, line, scale), Processed(path, url))
  }

  /** `CreateVisuals` for line number `line` whose text is `text`. */
  function CreateVisuals(s: State, env: Env, line: nat, text: string): (v: Visit)
    ensures v.after.cache == s.cache && v.after.edited == s.edited && v.after.enabled == s.enabled
    ensures s.tags <= v.after.tags
    ensures IsFolded(text) <==> v.action.Skipped?
    ensures IsFolded(text) ==> v.after == s
    ensures !IsFolded(text) && env.parse(text).NoMatch? ==>
      v.action == Cleared && v.after == s.(images := s.images - {line})
    // a matched directive whose span cannot be built ends the visit in the catch
    ensures v.action.SpanFailed? <==> !IsFolded(text) && !env.parse(text).NoMatch? && env.spanThrows(line)
    ensures v.action.SpanFailed? ==> v.after == s
    ensures !IsFolded(text) && env.parse(text).ParseError? && !env.spanThrows(line) ==>
      && v.action == ParseRejected
      && v.after == s.(images := s.images - {line},
                       tags := s.tags + [Tag(line, XmlParseTitle, ErrorMessage(env.parse(text).failure))])
    ensures !IsFolded(text) && env.parse(text).Directive? && !env.spanThrows(line) ==>
      v == Reconcile(s, env, line, env.parse(text).url, env.parse(text).scale)
    ensures ImagesDistinct(s) ==> forall l :: l != line ==> SameAt(s.images, v.after.images, l)
  {
    if IsFolded(text) then Visit(s, Skipped)
    else if env.parse(text).NoMatch? then Visit(s.(images := s.images - {line}), Cleared)
    else if env.spanThrows(line) then Visit(s, SpanFailed)
    else
      match env.parse(text)
      case ParseError(f) =>
        Visit(s.(images := s.images - {line},
                 tags := s.tags + [Tag(line, XmlParseTitle, ErrorMessage(f))]),
              ParseRejected)
      case Directive(url, scale) => Reconcile(s, env, line, url, scale)
  }

  /** `Client_DownloadDataCompleted` as the code is written: when reading the
      result throws, nothing after it runs, so the URL stays in flight and the
      download stays registered. */
  function DownloadCompleted(s: State, env: Env, client: nat, fetch: FetchOutcome): (t: State)
    ensures client !in s.pending || fetch.FetchFailed? ==> t == s
    ensures client in s.pending && fetch.Received? ==>
      var d := s.pending[client];
      && t.cache == s.cache[d.uri := d.localPath]
      && t.inFlight == RemoveFirst(s.inFlight, d.uri)
      && (NoDup(s.inFlight) ==> d.uri !in t.inFlight)
      && t.pending == s.pending - {client}
      && t.edited == s.edited && t.enabled == s.enabled
      && var p := ProcessImage(s, env, d.image, d.localPath, d.uri, d.line, d.scale);
         t.images == p.images && t.tags == p.tags
  {
    if client !in s.pending then s
    else match fetch
      case FetchFailed => s
      case Received =>
        var d := s.pending[client];
        var s1 := s.(cache := s.cache[d.uri := d.localPath], inFlight := RemoveFirst(s.inFlight, d.uri));
        var s2 := ProcessImage(s1, env, d.image, d.localPath, d.uri, d.line, d.scale);
        s2.(pending := s2.pending - {client})
  }

  /** The completion handler as evidently intended: a failed download also
      leaves the in-flight list and the registry, so a later pass retries it. */
  function DownloadCompletedReleasing(s: State, env: Env, client: nat, fetch: FetchOutcome): (t: State)
    ensures client !in s.pending ==> t == s
    ensures client in s.pending ==>
      && client !in t.pending
      && t.pending == s.pending - {client}
      && (NoDup(s.inFlight) ==> s.pending[client].uri !in t.inFlight)
      && (fetch.Received? ==> t == DownloadCompleted(s, env, client, fetch))
      && (fetch.FetchFailed? ==> t.cache == s.cache && t.images == s.images && t.tags == s.tags)
  {
    if client in s.pending && fetch.FetchFailed? then
      s.(inFlight := RemoveFirst(s.inFlight, s.pending[client].uri), pending := s.pending - {client})
    else DownloadCompleted(s, env, client, fetch)
  }
}

=== FILE: safety.dfy ===
/** The reconciler keeps the download bookkeeping consistent: the adornment
    never downloads a URL twice at once, and each image object is held by one line. */
module Safety {
  import opened Basics
  import opened Text
  import opened AdornmentState
  import opened Reconciler

  /** `ProcessImage` only re-records or drops image objects. */
  lemma ProcessImagePreservesValid(s: State, env: Env, img: nat, path: string, url: string, line: nat, scale: real)
    requires Valid(s)
    ensures Valid(ProcessImage(s, env, img, path, url, line, scale))
  {
    var t := ProcessImage(s, env, img, path, url, line, scale);
    assert t.inFlight == s.inFlight && t.pending == s.pending && t.cache == s.cache;
    forall c | c in t.pending ensures t.pending[c].uri in t.inFlight {
      assert s.pending[c].uri in s.inFlight;
    }
    if env.load(path).Loaded? {
      forall l, m | l in t.images && m in t.images && t.images[l].id == t.images[m].id ensures l == m {
        assert s.images[l].id == s.images[m].id;
      }
    }
  }

  /** A line visit preserves the invariant. */
  lemma CreateVisualsPreservesValid(s: State, env: Env, line: nat, text: string)
    requires Valid(s)
    ensures Valid(CreateVisuals(s, env, line, text).after)
  {
    if !IsFolded(text) && env.parse(text).Directive? {
      ReconcilePreservesValid(s, env, line, env.parse(text).url, env.parse(text).scale);
    }
  }

  lemma ReconcilePreservesValid(s: State, env: Env, line: nat, url: string, scale: real)
    requires Valid(s)
    ensures Valid(Reconcile(s, env, line, url, scale).after)
  {
    var v := Reconcile(s, env, line, url, scale);
    var d := Decide(Lookup(s.images, line), url, scale, s.nextImage);
    var s1 := Claim(s, line, url, scale);
    assert Valid(s1);
    match v.action
    case AwaitingFetch =>
    case FetchAbandoned =>
      MarkInFlightPreservesTracking(s1, url);
    case FetchStarted(c) =>
      var dl := Download(url, env.tempPath(url).value, d.entry.id, line, scale);
      StartFetchPreservesTracking(s1, dl);
      assert v.after == s1.(inFlight := s1.inFlight + [url], pending := s1.pending[s1.nextClient := dl],
                            nextClient := s1.nextClient + 1);
    case Processed(path, _) =>
      ProcessImagePreservesValid(s1, env, d.entry.id, path, url, line, scale);
  }

  /** A successful completion releases the URL; a failed one changes nothing. */
  lemma DownloadCompletedPreservesValid(s: State, env: Env, client: nat, fetch: FetchOutcome)
    requires Valid(s)
    ensures Valid(DownloadCompleted(s, env, client, fetch))
  {
    if client in s.pending && fetch.Received? {
      var d := s.pending[client];
      var released := s.(inFlight := RemoveFirst(s.inFlight, d.uri), pending := s.pending - {client});
      var s2 := released.(cache := s.cache[d.uri := d.localPath]);
      ReleasePreservesTracking(s, client);
      assert DownloadsTracked(s2) by {
        forall u | u in s2.inFlight ensures IsRemote(u) && u !in s2.cache {
          assert u in released.inFlight;
        }
      }
      ProcessImagePreservesValid(s2, env, d.image, d.localPath, d.uri, d.line, d.scale);
      assert DownloadCompleted(s, env, client, fetch) == ProcessImage(s2, env, d.image, d.localPath, d.uri, d.line, d.scale);
    }
  }

  /** The corrected completion preserves the invariant on both outcomes. */
  lemma DownloadCompletedReleasingPreservesValid(s: State, env: Env, client: nat, fetch: FetchOutcome)
    requires Valid(s)
    ensures Valid(DownloadCompletedReleasing(s, env, client, fetch))
  {
    if client in s.pending && fetch.FetchFailed? {
      ReleasePreservesTracking(s, client);
    } else {
      DownloadCompletedPreservesValid(s, env, client, fetch);
    }
  }

  /** Dropping download `client` and its URL keeps every other download tracked. */
  lemma ReleasePreservesTracking(s: State, client: nat)
    requires DownloadsTracked(s) && client in s.pending
    ensures var u := s.pending[client].uri;
      DownloadsTracked(s.(inFlight := RemoveFirst(s.inFlight, u), pending := s.pending - {client}))
  {
    var u := s.pending[client].uri;
    var t := s.(inFlight := RemoveFirst(s.inFlight, u), pending := s.pending - {client});
    assert u !in t.inFlight;
    forall c | c in t.pending ensures c < t.nextClient && t.pending[c].uri in t.inFlight {
      assert s.pending[c].uri != u;
      assert s.pending[c].uri in s.inFlight;
    }
  }

  /** Registering a download for a remote, uncached URL not yet in flight,
      under a fresh client, keeps every download tracked. */
  lemma StartFetchPreservesTracking(s: State, dl: Download)
    requires DownloadsTracked(s)
    requires dl.uri !in s.inFlight && IsRemote(dl.uri) && dl.uri !in s.cache
    ensures DownloadsTracked(s.(inFlight := s.inFlight + [dl.uri], pending := s.pending[s.nextClient := dl],
                                nextClient := s.nextClient + 1))
  {
    var c := s.nextClient;
    var url := dl.uri;
    var t := s.(inFlight := s.inFlight + [url], pending := s.pending[c := dl], nextClient := c + 1);
    assert c !in s.pending;
    forall u | u in t.inFlight ensures IsRemote(u) && u !in t.cache {
      if u != url {
        assert u in s.inFlight;
      }
    }
    forall e | e in t.pending ensures e < t.nextClient && t.pending[e].uri in t.inFlight {
      if e != c {
        assert s.pending[e].uri in s.inFlight;
      }
    }
    assert forall e :: e in s.pending ==> s.pending[e].uri != url by {
      forall e | e in s.pending ensures s.pending[e].uri != url {
        assert s.pending[e].uri in s.inFlight;
      }
    }
  }

  /** Marking a remote, uncached URL in flight with no download registered
      (the temp path threw) keeps every download tracked. */
  lemma MarkInFlightPreservesTracking(s: State, url: string)
    requires DownloadsTracked(s)
    requires url !in s.inFlight && IsRemote(url) && url !in s.cache
    ensures DownloadsTracked(s.(inFlight := s.inFlight + [url]))
  {
    var t := s.(inFlight := s.inFlight + [url]);
    forall u | u in t.inFlight ensures IsRemote(u) && u !in t.cache {
      if u != url {
        assert u in s.inFlight;
      }
    }
    forall e | e in t.pending ensures e < t.nextClient && t.pending[e].uri in t.inFlight {
      assert s.pending[e].uri in s.inFlight;
    }
  }
}

=== FILE: state.dfy ===
/** The state a `CommentsAdornment` keeps between events, the outcomes its
    hidden collaborators report, and the invariant the reconciler maintains. */
module AdornmentState {
  import opened Basics
  import opened Text
  import opened Errors

  /** The scale a freshly constructed `CommentImage` holds. Its constructor is
      not part of this model; the reload decision never reads the scale of an
      image that has no original URL yet, so the value is unobservable. */
  const FreshScale: real := 0.0

  /** A `CommentImage` object held for one line: `id` is its object identity,
      `originalUrl` and `scale` are what its last successful `TrySet` recorded. */
  datatype Entry = Entry(id: nat, originalUrl: Option<string>, scale: real)

  /** An outstanding download (`ImageParameters` in `_toAddImages`): the remote
      URL, the temp file it will be written to, the image object it was started
      for, that object's line number and the directive's scale. */
  datatype Download = Download(uri: string, localPath: string, image: nat, line: nat, scale: real)

  /** An error tag; the line number stands for the tag's text span. */
  datatype Tag = Tag(line: nat, title: string, message: string)

  /** Everything the reconciler reads and writes.
      - images: `Images`, line number to image object
      - inFlight: `_processingUris`, a list of remote URLs being downloaded
      - pending: `_toAddImages`, keyed by the `WebClient` identity
      - cache: `ImageCache.Instance`, remote URL to local file
      - tags: `_errorTags`
      - edited: `_editedLines`, line number to the line's text
      - enabled: the static `Enabled` flag
      - nextImage, nextClient: where fresh object identities come from */
  datatype State = State(
    images: map<nat, Entry>,
    inFlight: seq<string>,
    pending: map<nat, Download>,
    cache: map<string, string>,
    tags: seq<Tag>,
    edited: map<nat, string>,
    enabled: bool,
    nextImage: nat,
    nextClient: nat)

  /** What `CommentImageParser.Match` and `TryParse` make of one line's text. */
  datatype LineParse =
    | NoMatch
    | ParseError(failure: Failure)
    | Directive(url: string, scale: real)

  /** Whether `CommentImage.TrySet` loaded the image, or the exception it reported. */
  datatype LoadOutcome = Loaded | LoadFailed(failure: Failure)

  /** Whether reading `e.Result` and writing the temp file succeeded. */
  datatype FetchOutcome = Received | FetchFailed

  /** The collaborators the model does not see, as oracles: the parser (for the
      document's content type), the image loader (for the document's path),
      the temp file path `Path.Combine(Path.GetTempPath(), Path.GetFileName(url))`,
      which is `None` when those calls throw on characters invalid in a path,
      and whether the host throws when the span of a matched directive is
      built for a buffered line (its positions no longer fit the current
      snapshot, say because the end of the document was deleted). */
  datatype Env = Env(
    parse: string -> LineParse,
    load: string -> LoadOutcome,
    tempPath: string -> Option<string>,
    spanThrows: nat -> bool)

  /** The adornment as constructed: nothing loaded, nothing pending, no tags,
      no buffered lines. The image cache and the `Enabled` flag are static,
      shared by every adornment in the process, so both are inherited. */
  function Init(cache: map<string, string>, enabled: bool): (s: State)
    ensures s.images == map[] && s.pending == map[] && |s.inFlight| == 0
    ensures s.tags == [] && s.edited == map[]
    ensures s.cache == cache && s.enabled == enabled
  {
    State(map[], [], map[], cache, [], map[], enabled, 0, 0)
  }

  /** The entry at `line`, if any. */
  function Lookup(images: map<nat, Entry>, line: nat): Option<Entry> {
    if line in images then Some(images[line]) else None
  }

  /** Line `l` is held, or not, alike in `a` and `b`, by the same entry. */
  ghost predicate SameAt(a: map<nat, Entry>, b: map<nat, Entry>, l: nat) {
    (l in a <==> l in b) && (l in a ==> a[l] == b[l])
  }

  /** Every in-flight URL is remote, uncached, listed once and owned by at most
      one pending download; every pending download's URL is in flight. */
  ghost predicate DownloadsTracked(s: State) {
    && NoDup(s.inFlight)
    && (forall u :: u in s.inFlight ==> IsRemote(u) && u !in s.cache)
    && (forall c :: c in s.pending ==> c < s.nextClient && s.pending[c].uri in s.inFlight)
    && (forall c, d :: c in s.pending && d in s.pending && s.pending[c].uri == s.pending[d].uri ==> c == d)
  }

  /** Each image object is held by at most one line and was allocated already. */
  ghost predicate ImagesDistinct(s: State) {
    && (forall l :: l in s.images ==> s.images[l].id < s.nextImage)
    && (forall l, m :: l in s.images && m in s.images && s.images[l].id == s.images[m].id ==> l == m)
  }

  ghost predicate Valid(s: State) {
    DownloadsTracked(s) && ImagesDistinct(s)
  }

  /** The constructed adornment satisfies the invariant. */
  lemma InitValid(cache: map<string, string>, enabled: bool)
    ensures Valid(Init(cache, enabled))
  {
  }
}

=== FILE: text.dfy ===
/** The two string tests `CreateVisuals` makes on its own: whether a line's
    text is a collapsed (folded) block, and whether a URL is remote. */
module Text {

  /** `Environment.NewLine` on Windows, the separator the folded-line test splits on. */
  const CrLf: string := "\r\n"

  /** True iff a CR LF pair starts at index `i` of `s`. */
  predicate CrLfAt(s: string, i: int) {
    0 <= i && i + 1 < |s| && s[i] == '\r' && s[i + 1] == '\n'
  }

  ghost predicate HasCrLf(s: string) {
    exists i :: CrLfAt(s, i)
  }

  /** Joins pieces with CR LF between consecutive pieces. */
  function Join(pieces: seq<string>): string
    requires |pieces| >= 1
  {
    if |pieces| == 1 then pieces[0] else pieces[0] + CrLf + Join(pieces[1..])
  }

  /** `string.Split(new[] {"\r\n"}, None)`: cuts `s` at every CR LF, scanning
      left to right; empty pieces are kept here and dropped by `NonEmptyCount`. */
  function Split(s: string): (pieces: seq<string>)
    ensures |pieces| >= 1
    decreases |s|
  {
    if CrLfAt(s, 0) then [""] + Split(s[2..])
    else if |s| == 0 then [""]
    else
      var rest := Split(s[1..]);
      [[s[0]] + rest[0]] + rest[1..]
  }

  /** The length of the piece list once `RemoveEmptyEntries` has dropped the empty pieces. */
  function NonEmptyCount(pieces: seq<string>): nat {
    if |pieces| == 0 then 0
    else (if |pieces[0]| == 0 then 0 else 1) + NonEmptyCount(pieces[1..])
  }

  /** A line whose text holds more than one non-empty CR LF separated piece is
      the collapsed text of a folded block; such a text holds a line break. */
  function IsFolded(text: string): (r: bool)
    ensures r ==> HasCrLf(text)
  {
    assert !HasCrLf(text) ==> NonEmptyCount(Split(text)) <= 1 by {
      if !HasCrLf(text) {
        SinglePiece(text);
        assert [text][1..] == [];
      }
    }
    NonEmptyCount(Split(text)) > 1
  }

  /** Splitting and re-joining gives back the text. */
  lemma {:induction false} SplitJoin(s: string)
    ensures Join(Split(s)) == s
    decreases |s|
  {
    if CrLfAt(s, 0) {
      SplitJoin(s[2..]);
      var p := Split(s);
      assert p == [""] + Split(s[2..]);
      assert p[1..] == Split(s[2..]);
      assert s == CrLf + s[2..];
    } else if |s| == 0 {
    } else {
      var rest := Split(s[1..]);
      SplitJoin(s[1..]);
      var f := [s[0]] + rest[0];
      var p := Split(s);
      assert p == [f] + rest[1..];
      assert s == [s[0]] + s[1..];
      if |rest| > 1 {
        assert p[1..] == rest[1..];
        assert Join(p) == f + CrLf + Join(rest[1..]);
        assert Join(rest) == rest[0] + CrLf + Join(rest[1..]);
      }
    }
  }

  /** The first piece of a text that does not start with CR LF begins with the text's first character. */
  lemma FirstPieceStart(t: string)
    requires |t| >= 1 && !CrLfAt(t, 0)
    ensures |Split(t)[0]| >= 1 && Split(t)[0][0] == t[0]
  {
  }

  /** No piece contains a CR LF. */
  lemma {:induction false} SplitPiecesHaveNoCrLf(s: string)
    ensures forall k :: 0 <= k < |Split(s)| ==> !HasCrLf(Split(s)[k])
    decreases |s|
  {
    if CrLfAt(s, 0) {
      SplitPiecesHaveNoCrLf(s[2..]);
      var p := Split(s);
      forall k | 0 <= k < |p| ensures !HasCrLf(p[k]) {
        if k > 0 {
          assert p[k] == Split(s[2..])[k - 1];
        } else {
          assert |p[0]| == 0;
        }
      }
    } else if |s| == 0 {
    } else {
      var rest := Split(s[1..]);
      SplitPiecesHaveNoCrLf(s[1..]);
      var p := Split(s);
      var first := [s[0]] + rest[0];
      assert !HasCrLf(rest[0]);
      assert forall i :: !CrLfAt(first, i) by {
        forall i ensures !CrLfAt(first, i) {
          if i >= 1 {
            assert !CrLfAt(rest[0], i - 1);
            assert CrLfAt(first, i) == CrLfAt(rest[0], i - 1);
          } else if i == 0 {
            if CrLfAt(s[1..], 0) {
              assert |first| == 1;
            } else if |s| >= 2 {
              FirstPieceStart(s[1..]);
              assert first[1] == s[1];
              assert !CrLfAt(s, 0);
            }
          }
        }
      }
      forall k | 0 <= k < |p| ensures !HasCrLf(p[k]) {
        if k > 0 {
          assert p[k] == rest[k];
        } else {
          assert p[0] == first;
        }
      }
    }
  }

  /** Cutting at a CR LF right after a CR LF free prefix yields that prefix as the first piece. */
  lemma {:induction false} SplitAfterPiece(a: string, b: string)
    requires !HasCrLf(a)
    ensures Split(a + CrLf + b) == [a] + Split(b)
    decreases |a|
  {
    var s := a + CrLf + b;
    if |a| == 0 {
      assert s == CrLf + b;
      assert CrLfAt(s, 0);
      assert s[2..] == b;
    } else {
      var a' := a[1..];
      assert !HasCrLf(a') by {
        if HasCrLf(a') {
          var i :| CrLfAt(a', i);
          assert CrLfAt(a, i + 1);
        }
      }
      assert !CrLfAt(s, 0) by {
        if |a| == 1 {
          assert s[1] == '\r';
        } else {
          assert s[1] == a[1];
          assert !CrLfAt(a, 0);
        }
      }
      assert s[1..] == a' + CrLf + b;
      SplitAfterPiece(a', b);
      assert [s[0]] + a' == a;
    }
  }

  /** A text without CR LF is a single piece. */
  lemma {:induction false} SinglePiece(s: string)
    requires !HasCrLf(s)
    ensures Split(s) == [s]
    decreases |s|
  {
    if |s| > 0 {
      assert !CrLfAt(s, 0);
      assert !HasCrLf(s[1..]) by {
        if HasCrLf(s[1..]) {
          var i :| CrLfAt(s[1..], i);
          assert CrLfAt(s, i + 1);
        }
      }
      SinglePiece(s[1..]);
      assert [s[0]] + s[1..] == s;
    }
  }

  /** Two non-empty lines joined by CR LF are a folded block. */
  lemma TwoLinesFolded(a: string, b: string)
    requires |a| > 0 && |b| > 0
    requires !HasCrLf(a) && !HasCrLf(b)
    ensures IsFolded(a + CrLf + b)
  {
    SplitAfterPiece(a, b);
    SinglePiece(b);
    assert Split(a + CrLf + b) == [a, b];
  }

  /** ASCII upper-casing; `StringComparison.OrdinalIgnoreCase` folds no other
      character onto 'H', 'T' or 'P'. */
  function Upper(c: char): char {
    if 'a' <= c <= 'z' then (c as int - 32) as char else c
  }

  /** `url.StartsWith("http", StringComparison.OrdinalIgnoreCase)`. */
  function IsRemote(url: string): (r: bool)
    ensures r <==> && |url| >= 4
                   && (url[0] == 'h' || url[0] == 'H')
                   && (url[1] == 't' || url[1] == 'T')
                   && (url[2] == 't' || url[2] == 'T')
                   && (url[3] == 'p' || url[3] == 'P')
  {
    |url| >= 4 && forall i :: 0 <= i < 4 ==> Upper(url[i]) == "HTTP"[i]
  }
}
